=== FILE: README.md ===
# Searchable combo box engine — Dafny model

This project models the engine of halloy's searchable single-selection widget,
`ComboBox` in `src/widget/combo_box.rs`, without the iced rendering. The user types
into a text input. The widget then:

- filters a candidate list by token-substring matching;
- keeps the filtered list in a cache with a version stamp, which the overlay menu
  copies when the stamps differ;
- moves a hovered entry with the arrow keys and tab;
- commits the hovered entry on Enter;
- notifies the application when it closes.

Modules, one per component:

| file | module | models |
|---|---|---|
| `wrappers.dfy` | `Wrappers` | Rust's `Option` |
| `ascii.dfy` | `Ascii` | `is_ascii_alphanumeric`, ASCII lower-casing, `String::retain` |
| `matching.dfy` | `Matching` | `build_matchers` |
| `token_search.dfy` | `TokenSearch` | `search`: query tokenizing (`str::split`), `str::contains`, the zip-and-filter |
| `examples_search.dfy` | `SearchExamples` | two worked searches |
| `filtering.dfy` | `Filtering` | `Filtered::{new, empty, update, sync}` |
| `navigation.dfy` | `Navigation` | the hover arithmetic of arrow-up/down and tab |
| `combo_box.dfy` | `ComboBox` | `State::with_selection`, the menu's initial `state()`, `Widget::update`, the overlay sync, the `draw` selection rule |
| `combo_box_properties.dfy` | `ComboBoxProperties` | properties of whole events |

How the foreign parts are represented:

- **Display of an option.** A function `show: T -> string` stands for `T::to_string`.
- **Time.** `Instant::now()` becomes the `clock: nat` of the widget state. Each fresh
  instant is the current clock value, and the clock then moves on by one.
- **The text input.** `Step` is given two things: the `TextChanged` values the text
  input reported for the event (`edits`), and whether it holds focus afterwards
  (`focusedAfterInput`). `State.focused` at the start of the step is
  `started_focused`.
- **The commit's simulated left click.** It is a click with no cursor, so it lands
  outside the input. It is modelled as the input becoming unfocused.
- **Callbacks.** Each optional callback is reduced to whether it is set.
  Published messages are tagged with the callback that produced them: `Selected`,
  `Hovered`, `Input` or `Closed`. `on_close` is taken when it fires, so its flag
  turns false. The callbacks belong to one `ComboBox` value, which the application's
  `view` builds. Every focus change forces a rebuild (src/widget/combo_box.rs:675-677),
  and the rebuilt value carries `on_close` again.

Behaviour of the code that is easy to miss:

- **Empty query.** The empty query splits into the single token `""`. Separators next
  to each other also produce `""` tokens. Every matcher contains `""`, so such tokens
  keep every option (`TokenSearch.EmptyQueryKeepsAll`, `TokenSearch.SeparatorQueryKeepsAll`).
- **Text change.** It sets the hover to `Some(0)` even when the new list is empty.
- **`Input` messages.** They do not set `published_message_to_shell`. So `Closed` can
  follow an `Input` message in the same event.
- **Commit.** It resets the menu's scroll state but not the hovered position.
- **The hover is always set.** `state()` starts the hover at `Some(0)`, and every later
  write stores a `Some` (`ComboBoxProperties.HoverStaysSet`). The "nothing hovered"
  branches of advance and retreat are therefore never taken by the widget itself.
  For completeness, `Navigation.AdvanceFromNoHover` states what they would do: `n`
  presses on a list of `n` entries end on entry `n - 1`, and `n + 1` presses on
  entry 0. From a hovered entry `i`, `n` presses return to `i`
  (`Navigation.FullLapReturns`).
- **Out-of-range hover.** Advance clamps it to the last entry. Retreat only decrements
  it.

## Model

| member | source | states |
|---|---|---|
| Matching.Matcher | src/widget/combo_box.rs:816-820 | a matcher holds only lower-case ASCII letters and digits, one per alphanumeric character of the display string |
| Matching.BuildMatchers | src/widget/combo_box.rs:808-822 | exactly one matcher per option, and the i-th matcher is the matcher of the i-th option's display string |
| Matching.MatcherIsPositionIndependent | src/widget/combo_box.rs:814-821 | an option's matcher is the same wherever it sits in the list and whatever the other options are; matchers of a concatenated list are the concatenated matchers |
| Matching.MatcherIdempotent | src/widget/combo_box.rs:817-819 | normalising a matcher again gives the same matcher |
| Matching.MatcherIgnoresSeparator | src/widget/combo_box.rs:818 | inserting a non-alphanumeric character into a display string does not change its matcher |
| Ascii.Lower | src/widget/combo_box.rs:789 | lower-casing keeps the length and maps each character through the ASCII lower-case map |
| Ascii.Retain | src/widget/combo_box.rs:818 | a single character is kept exactly when it is alphanumeric and dropped otherwise; the result holds alphanumerics only, is no longer than the input, and leaves an all-alphanumeric string as it is; with `Ascii.RetainAppend` (distribution over concatenation) this fixes the result completely |
| Matching.LowerMatcher | src/widget/combo_box.rs:819 | letter case in a display string does not change its matcher |
| TokenSearch.Split | src/widget/combo_box.rs:788-792 | splitting yields at least one piece, and no piece holds a separator or, for lower-case input, an upper-case letter |
| TokenSearch.SplitRoundTrip | src/widget/combo_box.rs:790 | there is one more piece than separators, and the pieces glued back with the separators give the original string |
| TokenSearch.SplitAtSeparator | src/widget/combo_box.rs:790 | the pieces of `a c b` for a separator `c` are the pieces of `a` followed by those of `b` |
| TokenSearch.Tokens | src/widget/combo_box.rs:788-792 | the query yields at least one token, and every token is lower-case ASCII alphanumeric |
| TokenSearch.SeparatorQueryTokens | src/widget/combo_box.rs:788-792 | a query of n separators yields n + 1 empty tokens |
| TokenSearch.Contains | src/widget/combo_box.rs:799 | a needle that is a prefix, in particular the empty needle, is contained, and a contained needle is no longer than the matcher; `TokenSearch.ContainsIffOccurs` gives the full meaning |
| TokenSearch.ContainsIffOccurs | src/widget/combo_box.rs:799 | the substring test holds exactly when the needle occurs at some position of the matcher |
| TokenSearch.MissingFirstCharNotContained | src/widget/combo_box.rs:799 | a needle whose first character is absent from the matcher is not contained in it |
| TokenSearch.MatchesAll | src/widget/combo_box.rs:799 | an option passes exactly when its matcher contains every token |
| TokenSearch.Kept | src/widget/combo_box.rs:794-804 | the kept positions are strictly increasing, below the zipped length, and include position i exactly when matcher i contains every token |
| TokenSearch.Filter | src/widget/combo_box.rs:794-804 | the filter returns at most as many options as the zipped length, all of them among the options; `TokenSearch.FilterPrefixMatchesKept` gives its content |
| TokenSearch.Search | src/widget/combo_box.rs:780-805 | the search returns at most as many options as the zipped length, all of them among the options; `TokenSearch.SearchSelectsKept` gives its exact content |
| TokenSearch.SearchSelectsKept | src/widget/combo_box.rs:780-805 | the search result is the options at the kept positions in their original order: a stable filter that returns exactly the passing options of the zipped prefix |
| TokenSearch.SeparatorQueryKeepsAll | src/widget/combo_box.rs:788-799 | a query made only of separators returns every option of the zipped prefix |
| TokenSearch.EmptyQueryKeepsAll | src/widget/combo_box.rs:788-799 | the empty query is the token list `[""]` and returns every option when there is one matcher per option |
| TokenSearch.SameTokensSameResult | src/widget/combo_box.rs:799 | two queries with the same set of tokens return the same result |
| TokenSearch.QueryOrderIrrelevant | src/widget/combo_box.rs:788-799 | swapping the parts of a query around a separator does not change the result |
| TokenSearch.QueryRepetitionIrrelevant | src/widget/combo_box.rs:788-799 | repeating a query after a separator does not change the result |
| TokenSearch.JoinedQueryIntersects | src/widget/combo_box.rs:788-799 | an option is kept for `a c b` exactly when it is kept for `a` and for `b` |
| SearchExamples.ExampleSingleToken | src/widget/combo_box.rs:780-822 | options Alice, Bob, Charlie with query `li` give Alice, Charlie |
| SearchExamples.ExampleTwoTokens | src/widget/combo_box.rs:780-822 | options New York, Newark with query `new ar` give Newark |
| Filtering.Empty | src/widget/combo_box.rs:348-353 | the empty cache holds no options and carries the given instant |
| Filtering.Update | src/widget/combo_box.rs:355-358 | update installs the new list under the current instant, which differs from the old one once the clock has moved on |
| Filtering.Sync | src/widget/combo_box.rs:360-364 | the target ends with the source's instant; it becomes the source when the instants differed and is untouched when they agreed |
| Filtering.SyncMakesEqual | src/widget/combo_box.rs:360-364 | when equal instants mean equal lists, the target equals the source in list and instant after a sync |
| Filtering.SyncIdempotent | src/widget/combo_box.rs:360-364 | a second sync changes nothing |
| Filtering.UpdateThenSyncDelivers | src/widget/combo_box.rs:355-364 | after an update, syncing any earlier copy delivers the new list |
| Navigation.Advance | src/widget/combo_box.rs:590-610 | no hover goes to 0; a valid i goes to (i + 1) wrapped round n; an index past the end clamps to n - 1; an empty list stays at 0; the result is in range when n > 0 |
| Navigation.Retreat | src/widget/combo_box.rs:546-558 | no hover goes to 0; 0 goes to n - 1 (0 when empty); any other i goes to i - 1; a valid i goes to (i + n - 1) wrapped round n |
| Navigation.RetreatUndoesAdvance | src/widget/combo_box.rs:546-610 | on a valid index, retreat after advance and advance after retreat are the identity |
| Navigation.AdvanceCycles | src/widget/combo_box.rs:590-610 | k advances from a valid i land on i + k wrapped round n |
| Navigation.FullLapReturns | src/widget/combo_box.rs:590-610 | n advances from a valid i return to i |
| Navigation.AdvanceFromNoHover | src/widget/combo_box.rs:590-610 | from no hover, k advances land on k - 1 wrapped round n; n presses end on n - 1 and n + 1 presses on 0 |
| Navigation.ExampleThreeEntries | src/widget/combo_box.rs:546-610 | with three entries and no hover, advance, advance, retreat, retreat visit 0, 1, 0, 2 |
| ComboBox.WithSelection | src/widget/combo_box.rs:235-254 | the value is the selection's text or empty; matchers are built from the options; the cache holds the search of the value; without a selection the cache is the whole option list |
| ComboBox.NewMenu | src/widget/combo_box.rs:416-423 | the menu starts hovering 0, with nothing pending and an empty cache copy whose instant differs from the widget's, so the first overlay sync copies the list |
| ComboBox.ChangeText | src/widget/combo_box.rs:474-495 | one text change publishes `Input` when that callback is set, sets the value to the new text, resets the hover to 0 and installs the search of the new text under a fresh instant; options, matchers and focus are untouched |
| ComboBox.ApplyEdits | src/widget/combo_box.rs:472-498 | each text change publishes one `Input`, in order, when that callback is set; the last change sets the value, the cache and a hover of 0; options, matchers and focus are untouched |
| ComboBox.Classify | src/widget/combo_box.rs:523-632 | Enter commits; arrow-up or shift-tab retreats; arrow-down or tab without shift advances; other keys are ignored |
| ComboBox.HoverMessage | src/widget/combo_box.rs:560-575 | a `Hovered` message is produced exactly when the position is an entry of the list, and it carries that entry |
| ComboBox.Greeting | src/widget/combo_box.rs:500-513 | on gaining focus, one `Hovered` for the entry under the hover (0 when none) is published exactly when the callback is set and that entry exists |
| ComboBox.React | src/widget/combo_box.rs:515-633 | Enter over an entry makes it the pending selection, and nothing else does; arrow-up/shift-tab retreats and arrow-down/tab advances the hover, announcing the new entry when the callback is set; other keys change nothing |
| ComboBox.Navigate | src/widget/combo_box.rs:500-636 | the hover moves by advance or retreat on those keys and stays put otherwise, so a set hover stays set; Enter over an entry makes it the pending selection, and the pending selection changes in no other case; the greeting comes first and the new entry's `Hovered` last; only `Hovered` messages carrying list entries are published, none without the callback |
| ComboBox.Step | src/widget/combo_box.rs:425-679 | after any event options and matchers are unchanged, no selection is pending, a set hover stays set, a rebuild is requested exactly when focus changed, and the input and hover callbacks are kept; the cache and close facts are in `ComboBoxProperties.StepPreservesInvariant` and `ComboBoxProperties.CloseRule` |
| ComboBox.ApplyCommit | src/widget/combo_box.rs:639-666 | a pending selection clears the value, resets the cache to all options under a fresh instant (so the overlay's next sync picks it up), unfocuses, keeps options and matchers, publishes exactly that `Selected` and leaves nothing pending; without one nothing changes |
| ComboBox.Conclude | src/widget/combo_box.rs:668-678 | the end of an event keeps the state and menu, asks for a rebuild exactly when focus changed, and leaves the other callbacks alone |
| ComboBox.Overlay | src/widget/combo_box.rs:731-766 | only a focused widget shows the list; it renders the synced copy and the current hover, and takes the widget's cache when the instants differ |
| ComboBox.DisplayedSelection | src/widget/combo_box.rs:704-709 | the selection text is drawn exactly when the widget is unfocused and the text is not empty |
| ComboBoxProperties.StepPreservesInvariant | src/widget/combo_box.rs:425-679 | every event keeps the cache equal to the search of the value, keeps the overlay copy coherent, and leaves nothing pending |
| ComboBoxProperties.HoverStaysSet | src/widget/combo_box.rs:420 | the first menu hovers a position, and no event clears the hover once it is set |
| ComboBoxProperties.ConstructionEstablishesInvariant | src/widget/combo_box.rs:235-254 | construction plus the first menu establish both invariants |
| ComboBoxProperties.TextChangeResetsHover | src/widget/combo_box.rs:472-498 | after text changes caused by any event that is not Enter, an arrow key or tab (typing, Backspace, paste, or a non-key event), the hover is 0, even for an empty list; the value and cache follow the last change; `Input` messages follow the changes in order |
| ComboBoxProperties.ArrowKeysMoveHover | src/widget/combo_box.rs:538-631 | arrow keys and tab move only the hover; `Hovered` is published only when the callback is set and the new position is an entry |
| ComboBoxProperties.FocusGainAnnouncesHover | src/widget/combo_box.rs:500-513 | on gaining focus, the entry under the hover (0 when none) is announced when the callback is set and the entry exists |
| ComboBoxProperties.EnterCommitsHovered | src/widget/combo_box.rs:524-537 | Enter on a valid hover commits it in the same event: value empty, all options listed, unfocused, one `Selected` last, no `Closed` |
| ComboBoxProperties.EnterWithoutEntryIsIgnored | src/widget/combo_box.rs:528-534 | Enter without a valid hovered entry changes nothing and publishes nothing |
| ComboBoxProperties.SelectedOnlyOnCommit | src/widget/combo_box.rs:638-666 | `Selected` is published only on Enter, as the last message, carrying one of the options, and always with the reset |
| ComboBoxProperties.ConcludeSelection | src/widget/combo_box.rs:638-673 | in the assembled message list, a `Selected` can only be the commit's, and it is last |
| ComboBoxProperties.ConcludeCloseRule | src/widget/combo_box.rs:668-673 | the close rule on the assembled message list |
| ComboBoxProperties.CloseRule | src/widget/combo_box.rs:668-673 | `Closed` is published exactly when the event started focused, ended unfocused, published no hover or selection, and the close message was unused; it is last and used up |
| ComboBoxProperties.SpentCloseStaysSpent | src/widget/combo_box.rs:668-673 | once the close message has been taken, an event publishes no `Closed` and the message stays taken |
| ComboBoxProperties.SpentCloseNeverFires | src/widget/combo_box.rs:668-673 | without its close message, a widget publishes no `Closed` over any sequence of events |
| ComboBoxProperties.ClosedAtMostOnce | src/widget/combo_box.rs:668-673 | once `Closed` has been published, no later event handled by the same `ComboBox` value publishes it, over any sequence of events, including focus regained and lost again: `take()` at line 671 used the message up |
| ComboBoxProperties.ClickAwayCloses | src/widget/combo_box.rs:668-678 | losing focus with nothing else happening publishes exactly `[Closed]` and asks for a rebuild |
| ComboBoxProperties.OverlayShowsSearch | src/widget/combo_box.rs:731-745 | a focused overlay renders the search of the current value whichever frame its copy was last synced in |
| ComboBoxProperties.OverlayAfterStep | src/widget/combo_box.rs:425-745 | after any event, a focused overlay renders the search of the new value |

## Left out

- Rendering and layout are not modelled: `layout`, `draw` (beyond the selection rule), `mouse_interaction`, overlay placement (the 4.0 spacing and the bounds width), fonts, sizes, padding and the `Catalog` theming.
- The `Shell` signals other than the rebuild request are not modelled: event capture, redraw requests and `invalidate_layout`. They only drive rendering.
- The wrapped `text_input::State` is not modelled, and neither is the simulated left click. Its focus and the text changes it reports are inputs of `Step`; the commit's click is represented by its effect, the loss of focus.
- `State::focus`, `unfocus`, `focused` and `is_focused` only set or read that foreign focus flag, which the model carries as `State.focused`.
- The mouse inside the overlay list is not modelled: clicking an entry to select it, and moving over the list. The widget hands `hovered_option` to iced's `menu::Menu` by mutable reference, so mouse movement changes the hover and publishes `Hovered` through `on_option_hovered` (src/widget/combo_box.rs:736-742). That happens inside `menu::Menu`, which is not part of this model. `ComboBoxProperties.HoverStaysSet` and the other hover facts cover keyboard events and text changes only.
- `RefCell` borrowing (`with_inner`, `with_inner_mut`, `sync_filtered_options`) is not modelled. The shared state is a plain value passed in and returned.
- `Instant::now()` is replaced by a counter that strictly increases. The model therefore does not cover two calls returning the same instant, which would make `sync` skip a change.
- ComboBoxProperties.ClosedAtMostOnce: the callbacks live as long as one `ComboBox` value. Line 677 forces a rebuild after each focus change, and the rebuilt value publishes `Closed` again in a later focus session. The lemma is about one value's events; rebuilding the widget from the application's `view` is not modelled.
- TokenSearch.Tokens: the query is lower-cased for ASCII letters only. Rust's Unicode `to_lowercase` can turn a few non-ASCII characters into ASCII letters (the Kelvin sign becomes `k`), which the model does not reproduce.
- `usize` saturation is not modelled beyond `saturating_sub(1)`. `saturating_add(1)` on an index cannot reach `usize::MAX` for any real list length.
- `Filtered::new` is the datatype constructor `Filtered(options, now)`. `State::new` is `WithSelection` with no selection.
- The builder setters (`on_input`, `on_option_hovered`, `on_close`, `padding`, `font`, `icon`, `size`, `line_height`, `width`, the style and class setters) are not modelled. The three callback setters are represented by the `Callbacks` flags; the rest is configuration only.
- `src/buffer/server.rs`, `src/buffer/list.rs`, `src/screen/dashboard/settings.rs` and its `scale_factor.rs` and `buffer.rs`, `crates/data/src/config/proxy.rs` and `src/appearance/theme/slider.rs` are not part of this model. They hold UI layout, stubs, float styling and a field-for-field conversion.

=== FILE: ascii.dfy ===
/**
 * ASCII character classes and case mapping, as used by the matcher builder
 * and the query tokenizer (`char::is_ascii_alphanumeric`, `to_lowercase`).
 */
module Ascii {

  predicate IsUpper(c: char) {
    'A' <= c <= 'Z'
  }

  /** `char::is_ascii_alphanumeric`. */
  predicate IsAlnum(c: char) {
    '0' <= c <= '9' || 'a' <= c <= 'z' || IsUpper(c)
  }

  /** The characters a matcher and a query token are made of. */
  predicate IsLowerAlnum(c: char) {
    '0' <= c <= '9' || 'a' <= c <= 'z'
  }

  predicate AllLowerAlnum(s: string) {
    forall i :: 0 <= i < |s| ==> IsLowerAlnum(s[i])
  }

  predicate AllAlnum(s: string) {
    forall i :: 0 <= i < |s| ==> IsAlnum(s[i])
  }

  /** Lower-cases one character; only `A`..`Z` change. */
  function ToLower(c: char): (r: char)
    ensures IsAlnum(r) <==> IsAlnum(c)
    ensures IsAlnum(c) ==> IsLowerAlnum(r)
    ensures !IsUpper(c) ==> r == c
    ensures IsUpper(c) ==> r != c && !IsUpper(r)
  {
    if IsUpper(c) then (c as int + 32) as char else c
  }

  /** Lower-cases a string character by character. */
  function Lower(s: string): (r: string)
    ensures |r| == |s|
    ensures forall i :: 0 <= i < |s| ==> r[i] == ToLower(s[i])
  {
    if |s| == 0 then [] else [ToLower(s[0])] + Lower(s[1..])
  }

  /** `String::retain(|c| c.is_ascii_alphanumeric())`: drops every other character, keeping order. */
  function Retain(s: string): (r: string)
    ensures |r| <= |s|
    ensures AllAlnum(r)
    ensures AllAlnum(s) ==> r == s
    ensures |s| == 1 ==> r == (if IsAlnum(s[0]) then s else [])
  {
    if |s| == 0 then []
    else if IsAlnum(s[0]) then [s[0]] + Retain(s[1..])
    else Retain(s[1..])
  }

  lemma {:induction false} RetainAppend(a: string, b: string)
    ensures Retain(a + b) == Retain(a) + Retain(b)
  {
    if |a| == 0 {
      assert a + b == b;
    } else {
      assert (a + b)[1..] == a[1..] + b;
      RetainAppend(a[1..], b);
    }
  }

  lemma {:induction false} LowerAppend(a: string, b: string)
    ensures Lower(a + b) == Lower(a) + Lower(b)
  {
  }

  /** Lower-casing a string that is already lower-case alphanumeric changes nothing. */
  lemma LowerOfLowerAlnum(s: string)
    requires AllLowerAlnum(s)
    ensures Lower(s) == s
  {
  }
}

=== FILE: combo_box.dfy ===
/**
 * The combo box engine: the widget state shared by every frame (typed
 * value, options, matchers, filtered cache), the per-tree menu state
 * (hovered entry, pending selection, the overlay's copy of the cache), and
 * the reaction of the widget to one event.
 *
 * The text input the widget wraps is outside the model: what it does with an
 * event is given to `Step` as the text changes it reported and whether it
 * holds focus afterwards. Callbacks are reduced to whether they are set;
 * messages are tagged with the callback that produced them. The instant
 * source is the `clock` of the widget state.
 */
module ComboBox {
  import opened Wrappers
  import Matching
  import TokenSearch
  import Filtering
  import Navigation

  datatype Key = Enter | ArrowUp | ArrowDown | Tab | OtherKey

  datatype Event = KeyPressed(key: Key, shift: bool) | OtherEvent

  /** What the widget publishes to the application. */
  datatype Message<T> = Selected(option: T) | Hovered(option: T) | Input(text: string) | Closed

  /** The optional callbacks the widget was built with; `onClose` is used up once it fires. */
  datatype Callbacks = Callbacks(onInput: bool, onHovered: bool, onClose: bool)

  /** The widget state (`Inner`): `focused` stands for the wrapped text input's focus. */
  datatype State<T> = State(
    value: string,
    options: seq<T>,
    matchers: seq<string>,
    filtered: Filtering.Filtered<T>,
    focused: bool,
    clock: nat)

  /** The per-tree menu state (`Menu`), without the foreign scroll state of the list. */
  datatype Menu<T> = Menu(hovered: Option<nat>, newSelection: Option<T>, filtered: Filtering.Filtered<T>)

  /** The result of one `Step`. `invalidate` asks the application to rebuild the widget tree. */
  datatype Reaction<T> = Reaction(
    state: State<T>,
    menu: Menu<T>,
    callbacks: Callbacks,
    messages: seq<Message<T>>,
    invalidate: bool)

  /** Widget state and menu state after one part of an event, with the messages that part published. */
  datatype Outcome<T> = Outcome(state: State<T>, menu: Menu<T>, messages: seq<Message<T>>)

  /** The menu after keyboard navigation, with the `Hovered` messages it published. */
  datatype Moved<T> = Moved(menu: Menu<T>, hovers: seq<Message<T>>)

  datatype Action = Commit | Retreat | Advance | Ignore

  // ---------------------------------------------------------------------------
  // Invariants
  // ---------------------------------------------------------------------------

  /**
   * The widget state is consistent: matchers were built from the options,
   * the cached list is the search result for the typed value, and the
   * cache's instant lies in the past of the clock.
   */
  ghost predicate Invariant<T>(show: T -> string, s: State<T>) {
    && s.matchers == Matching.BuildMatchers(show, s.options)
    && s.filtered.options == TokenSearch.Search(s.options, s.matchers, s.value)
    && s.filtered.stamp < s.clock
  }

  /** The overlay's copy of the cache is older than the clock and agrees with the widget's when instants match. */
  ghost predicate Synced<T>(s: State<T>, m: Menu<T>) {
    m.filtered.stamp < s.clock && Filtering.Coherent(s.filtered, m.filtered)
  }

  /** Between two events the menu is synced and holds no pending selection. */
  ghost predicate MenuInvariant<T>(s: State<T>, m: Menu<T>) {
    Synced(s, m) && m.newSelection.None?
  }

  // ---------------------------------------------------------------------------
  // Construction
  // ---------------------------------------------------------------------------

  /**
   * `State::with_selection`: the typed value starts as the selection's text
   * (empty without one), matchers are built once, and the cache holds the
   * search for that value, stamped `now`.
   */
  function WithSelection<T>(show: T -> string, options: seq<T>, selection: Option<T>, now: nat): (s: State<T>)
    ensures Invariant(show, s)
    ensures s.options == options && !s.focused
    ensures s.value == (if selection.Some? then show(selection.value) else "")
    ensures selection.None? ==> s.filtered.options == options
  {
    var value := if selection.Some? then show(selection.value) else "";
    var matchers := Matching.BuildMatchers(show, options);
    TokenSearch.EmptyQueryKeepsAll(options, matchers);
    State(value, options, matchers, Filtering.Filtered(TokenSearch.Search(options, matchers, value), now), false, now + 1)
  }

  /**
   * The initial menu state of a widget tree (`state()`): hovering the first
   * entry, nothing pending, and an empty copy of the cache under a fresh
   * instant, so that the first overlay sync copies the widget's list.
   */
  function NewMenu<T>(s: State<T>): (r: Outcome<T>)
    ensures r.menu.hovered == Some(0) && r.menu.newSelection.None? && r.menu.filtered.options == []
    ensures r.state == s.(clock := s.clock + 1) && r.messages == []
    ensures s.filtered.stamp < s.clock ==> r.menu.filtered.stamp != s.filtered.stamp && MenuInvariant(r.state, r.menu)
  {
    Outcome(s.(clock := s.clock + 1), Menu(Some(0), None, Filtering.Empty(s.clock)), [])
  }

  // ---------------------------------------------------------------------------
  // Text changes
  // ---------------------------------------------------------------------------

  /**
   * One `TextChanged` from the text input: `Input` is published when that
   * callback is set, the value becomes the new text, the hover resets to the
   * first entry and the cache is recomputed under a fresh instant.
   */
  function ChangeText<T>(s: State<T>, m: Menu<T>, cb: Callbacks, value: string): (r: Outcome<T>)
    ensures r.messages == (if cb.onInput then [Input(value)] else [])
    ensures r.menu == m.(hovered := Some(0))
    ensures r.state.value == value
    ensures r.state.filtered.options == TokenSearch.Search(s.options, s.matchers, value)
    ensures r.state.filtered.stamp == s.clock
    ensures r.state.options == s.options && r.state.matchers == s.matchers && r.state.focused == s.focused
    ensures r.state.clock == s.clock + 1
  {
    var results := TokenSearch.Search(s.options, s.matchers, value);
    Outcome(
      s.(value := value, filtered := Filtering.Update(s.filtered, results, s.clock), clock := s.clock + 1),
      m.(hovered := Some(0)),
      if cb.onInput then [Input(value)] else [])
  }

  /**
   * All text changes of one event, in order: each publishes `Input` when
   * that callback is set, and the last one decides the value and the cache.
   */
  function ApplyEdits<T>(s: State<T>, m: Menu<T>, cb: Callbacks, edits: seq<string>): (r: Outcome<T>)
    ensures r.state.options == s.options && r.state.matchers == s.matchers && r.state.focused == s.focused
    ensures r.state.clock == s.clock + |edits|
    ensures r.menu.newSelection == m.newSelection && r.menu.filtered == m.filtered
    ensures |edits| == 0 ==> r == Outcome(s, m, [])
    ensures |edits| > 0 ==>
      && r.state.value == edits[|edits| - 1]
      && r.state.filtered.options == TokenSearch.Search(s.options, s.matchers, edits[|edits| - 1])
      && r.state.filtered.stamp == r.state.clock - 1
      && r.menu.hovered == Some(0)
    ensures cb.onInput ==> |r.messages| == |edits| && forall k :: 0 <= k < |edits| ==> r.messages[k] == Input(edits[k])
    ensures !cb.onInput ==> r.messages == []
    ensures forall k :: 0 <= k < |r.messages| ==> r.messages[k].Input?
    decreases |edits|
  {
    if |edits| == 0 then Outcome(s, m, [])
    else
      var next := ChangeText(s, m, cb, edits[0]);
      var rest := ApplyEdits(next.state, next.menu, cb, edits[1..]);
      rest.(messages := next.messages + rest.messages)
  }

  // ---------------------------------------------------------------------------
  // Keyboard navigation
  // ---------------------------------------------------------------------------

  /** The transition table keyed by key and shift modifier. */
  function Classify(key: Key, shift: bool): (a: Action)
    ensures a == Commit <==> key == Enter
    ensures a == Retreat <==> key == ArrowUp || (key == Tab && shift)
    ensures a == Advance <==> key == ArrowDown || (key == Tab && !shift)
    ensures a == Ignore <==> key == OtherKey
  {
    match key
    case Enter => Commit
    case ArrowUp => Retreat
    case ArrowDown => Advance
    case Tab => if shift then Retreat else Advance
    case OtherKey => Ignore
  }

  /** The action an event asks for; events other than key presses are ignored. */
  function ActionOf(ev: Event): Action {
    if ev.KeyPressed? then Classify(ev.key, ev.shift) else Ignore
  }

  /** A `Hovered` message for the entry at `hovered`, when there is such an entry. */
  function HoverMessage<T>(list: seq<T>, hovered: Option<nat>): (r: seq<Message<T>>)
    ensures |r| <= 1
    ensures |r| == 1 <==> hovered.Some? && hovered.value < |list|
    ensures |r| == 1 ==> r[0] == Hovered(list[hovered.value])
  {
    if hovered.Some? && hovered.value < |list| then [Hovered(list[hovered.value])] else []
  }

  /**
   * On gaining focus the entry under the hover is announced, the first
   * entry when nothing is hovered, provided that entry exists and the
   * callback is set.
   */
  function Greeting<T>(list: seq<T>, m: Menu<T>, cb: Callbacks, startedFocused: bool): (r: seq<Message<T>>)
    ensures |r| <= 1
    ensures |r| == 1 <==> !startedFocused && cb.onHovered && m.hovered.GetOr(0) < |list|
    ensures |r| == 1 ==> r[0] == Hovered(list[m.hovered.GetOr(0)])
  {
    if !startedFocused && cb.onHovered then HoverMessage(list, Some(m.hovered.GetOr(0))) else []
  }

  /**
   * The key part of navigation: Enter marks the hovered entry as the pending
   * selection when it is an entry of `list`; the arrow keys and tab move the
   * hover and announce the new entry when the callback is set.
   */
  function React<T>(list: seq<T>, m: Menu<T>, cb: Callbacks, a: Action): (r: Moved<T>)
    ensures r.menu.filtered == m.filtered
    ensures a == Advance ==> r.menu.hovered == Navigation.Advance(m.hovered, |list|)
    ensures a == Retreat ==> r.menu.hovered == Navigation.Retreat(m.hovered, |list|)
    ensures a == Commit || a == Ignore ==> r.menu.hovered == m.hovered
    ensures a == Commit && m.hovered.Some? && m.hovered.value < |list| ==>
      r.menu.newSelection == Some(list[m.hovered.value])
    ensures r.menu.newSelection != m.newSelection ==>
      a == Commit && m.hovered.Some? && m.hovered.value < |list|
    ensures (a == Advance || a == Retreat) && cb.onHovered ==> r.hovers == HoverMessage(list, r.menu.hovered)
    ensures !((a == Advance || a == Retreat) && cb.onHovered) ==> r.hovers == []
  {
    match a
    case Ignore => Moved(m, [])
    case Commit =>
      if m.hovered.Some? && m.hovered.value < |list| then
        Moved(m.(newSelection := Some(list[m.hovered.value])), [])
      else
        Moved(m, [])
    case Retreat =>
      var h := Navigation.Retreat(m.hovered, |list|);
      Moved(m.(hovered := h), if cb.onHovered then HoverMessage(list, h) else [])
    case Advance =>
      var h := Navigation.Advance(m.hovered, |list|);
      Moved(m.(hovered := h), if cb.onHovered then HoverMessage(list, h) else [])
  }

  /**
   * What a focused widget does with an event: announce the hovered entry
   * when focus was just gained, then move the hover and announce the new
   * entry, or mark the hovered entry as the pending selection. Positions
   * index the widget's cache.
   */
  function Navigate<T>(s: State<T>, m: Menu<T>, cb: Callbacks, ev: Event, startedFocused: bool): (r: Moved<T>)
    ensures r.menu.filtered == m.filtered
    // where the hover goes
    ensures ActionOf(ev) == Advance ==> r.menu.hovered == Navigation.Advance(m.hovered, |s.filtered.options|)
    ensures ActionOf(ev) == Retreat ==> r.menu.hovered == Navigation.Retreat(m.hovered, |s.filtered.options|)
    ensures ActionOf(ev) == Commit || ActionOf(ev) == Ignore ==> r.menu.hovered == m.hovered
    ensures m.hovered.Some? ==> r.menu.hovered.Some?
    // Enter marks the hovered entry, and nothing else marks anything
    ensures ActionOf(ev) == Commit && m.hovered.Some? && m.hovered.value < |s.filtered.options| ==>
      r.menu.newSelection == Some(s.filtered.options[m.hovered.value])
    ensures r.menu.newSelection != m.newSelection ==>
      && ev.KeyPressed? && ev.key == Enter
      && m.hovered.Some? && m.hovered.value < |s.filtered.options|
      && r.menu.newSelection == Some(s.filtered.options[m.hovered.value])
    // what is announced
    ensures |r.hovers| <= 2
    ensures forall k :: 0 <= k < |r.hovers| ==> r.hovers[k].Hovered? && r.hovers[k].option in s.filtered.options
    ensures !cb.onHovered ==> r.hovers == []
    ensures !startedFocused && cb.onHovered && m.hovered.GetOr(0) < |s.filtered.options| ==>
      |r.hovers| > 0 && r.hovers[0] == Hovered(s.filtered.options[m.hovered.GetOr(0)])
    ensures startedFocused && ActionOf(ev) != Advance && ActionOf(ev) != Retreat ==> r.hovers == []
    ensures (ActionOf(ev) == Advance || ActionOf(ev) == Retreat) && cb.onHovered &&
            r.menu.hovered.Some? && r.menu.hovered.value < |s.filtered.options| ==>
      |r.hovers| > 0 && r.hovers[|r.hovers| - 1] == Hovered(s.filtered.options[r.menu.hovered.value])
  {
    var list := s.filtered.options;
    var greeting := Greeting(list, m, cb, startedFocused);
    var reacted := React(list, m, cb, ActionOf(ev));
    Moved(reacted.menu, greeting + reacted.hovers)
  }

  // ---------------------------------------------------------------------------
  // Commit
  // ---------------------------------------------------------------------------

  /**
   * A pending selection is taken: the value is cleared, the cache goes back
   * to the whole option list under a new instant, the selection is published
   * and the text input is clicked away from, which leaves it unfocused.
   */
  function ApplyCommit<T>(s: State<T>, m: Menu<T>): (r: Outcome<T>)
    ensures r.menu.newSelection.None?
    ensures m.newSelection.None? ==> r == Outcome(s, m, [])
    ensures m.newSelection.Some? ==>
      && r.state.value == ""
      && r.state.filtered.options == s.options
      && !r.state.focused
      && r.messages == [Selected(m.newSelection.value)]
      && r.menu == m.(newSelection := None)
    ensures m.newSelection.Some? ==>
      && r.state.options == s.options && r.state.matchers == s.matchers
      && r.state.filtered.stamp == s.clock && r.state.clock == s.clock + 1
  {
    match m.newSelection
    case None => Outcome(s, m, [])
    case Some(x) =>
      Outcome(
        s.(value := "", filtered := Filtering.Update(s.filtered, s.options, s.clock), clock := s.clock + 1, focused := false),
        m.(newSelection := None),
        [Selected(x)])
  }

  // ---------------------------------------------------------------------------
  // One event
  // ---------------------------------------------------------------------------

  /**
   * `Widget::update`. `focusedAfterInput` is the text input's focus once it
   * has handled `ev`, and `edits` the text changes it reported. Text changes
   * are applied first, then a focused widget navigates, then a pending
   * selection is committed. Options and matchers never change, and no
   * selection is left pending.
   */
  function Step<T>(s: State<T>, m: Menu<T>, cb: Callbacks, ev: Event, edits: seq<string>, focusedAfterInput: bool): (r: Reaction<T>)
    ensures r.state.options == s.options && r.state.matchers == s.matchers
    ensures r.menu.newSelection.None?
    ensures m.hovered.Some? ==> r.menu.hovered.Some?
    ensures r.invalidate <==> s.focused != r.state.focused
    ensures r.callbacks.onInput == cb.onInput && r.callbacks.onHovered == cb.onHovered
  {
    var edited := ApplyEdits(s.(focused := focusedAfterInput), m, cb, edits);
    var navigated := if edited.state.focused then Navigate(edited.state, edited.menu, cb, ev, s.focused) else Moved(edited.menu, []);
    var committed := ApplyCommit(edited.state, navigated.menu);
    Conclude(s.focused, cb, edited.messages, navigated.hovers, committed.state, committed.menu, committed.messages)
  }

  /**
   * The end of an event. `Closed` is published when focus was lost during
   * the event, no hover or selection was published (text-change messages do
   * not count), and the close message has not been used yet; it is then
   * used up. A change of focus asks for the widget tree to be rebuilt.
   */
  function Conclude<T>(
    startedFocused: bool, cb: Callbacks,
    inputs: seq<Message<T>>, hovers: seq<Message<T>>,
    state: State<T>, menu: Menu<T>, selections: seq<Message<T>>): (r: Reaction<T>)
    ensures r.state == state && r.menu == menu
    ensures r.invalidate <==> startedFocused != state.focused
    ensures r.callbacks.onInput == cb.onInput && r.callbacks.onHovered == cb.onHovered
  {
    var published := |hovers| > 0 || |selections| > 0;
    var closing := startedFocused && !state.focused && !published && cb.onClose;
    Reaction(
      state,
      menu,
      cb.(onClose := cb.onClose && !closing),
      inputs + hovers + selections + (if closing then [Closed] else []),
      startedFocused != state.focused)
  }

  // ---------------------------------------------------------------------------
  // Overlay and display
  // ---------------------------------------------------------------------------

  /** What the overlay list renders: its entries and the hovered position. */
  datatype OverlayView<T> = OverlayView(options: seq<T>, hovered: Option<nat>)

  /** The menu after an overlay request, and what the overlay shows (nothing when there is no overlay). */
  datatype Shown<T> = Shown(menu: Menu<T>, view: Option<OverlayView<T>>)

  /**
   * `overlay`: only a focused widget shows the list; it first syncs the
   * menu's copy of the cache from the widget state.
   */
  function Overlay<T>(s: State<T>, m: Menu<T>): (r: Shown<T>)
    ensures !s.focused ==> r == Shown(m, None)
    ensures s.focused ==> r.view == Some(OverlayView(r.menu.filtered.options, m.hovered))
    ensures r.menu.hovered == m.hovered && r.menu.newSelection == m.newSelection
    ensures s.focused && m.filtered.stamp != s.filtered.stamp ==> r.menu.filtered == s.filtered
  {
    if s.focused then
      var synced := m.(filtered := Filtering.Sync(s.filtered, m.filtered));
      Shown(synced, Some(OverlayView(synced.filtered.options, synced.hovered)))
    else Shown(m, None)
  }

  /**
   * `draw`: the selection's text is drawn in place of the value only while
   * the widget is unfocused and that text is not empty.
   */
  function DisplayedSelection<T>(show: T -> string, focused: bool, selection: Option<T>): (r: Option<string>)
    ensures r.Some? <==> !focused && selection.Some? && show(selection.value) != ""
    ensures r.Some? ==> r.value == show(selection.value)
  {
    var text := if selection.Some? then show(selection.value) else "";
    if focused || text == "" then None else Some(text)
  }
}

=== FILE: combo_box_properties.dfy ===
/** Properties of the combo box engine across whole events. */
module ComboBoxProperties {
  import opened Wrappers
  import opened ComboBox
  import Matching
  import TokenSearch
  import Navigation

  // ---------------------------------------------------------------------------
  // The cache always holds the search result
  // ---------------------------------------------------------------------------

  lemma {:induction false} EditsPreserveInvariant<T>(show: T -> string, s: State<T>, m: Menu<T>, cb: Callbacks, edits: seq<string>)
    requires Invariant(show, s) && Synced(s, m)
    ensures var r := ApplyEdits(s, m, cb, edits); Invariant(show, r.state) && Synced(r.state, r.menu)
    decreases |edits|
  {
    if |edits| > 0 {
      var next := ChangeText(s, m, cb, edits[0]);
      assert Invariant(show, next.state) && Synced(next.state, next.menu);
      EditsPreserveInvariant(show, next.state, next.menu, cb, edits[1..]);
    }
  }

  lemma CommitPreservesInvariant<T>(show: T -> string, s: State<T>, m: Menu<T>)
    requires Invariant(show, s) && Synced(s, m)
    ensures var r := ApplyCommit(s, m); Invariant(show, r.state) && MenuInvariant(r.state, r.menu)
  {
    if m.newSelection.Some? {
      TokenSearch.EmptyQueryKeepsAll(s.options, s.matchers);
    }
  }

  /**
   * Every event keeps the cache equal to the search of the typed value,
   * whether it changed the text, moved the hover, committed a selection or
   * did nothing; and it leaves no selection pending.
   */
  lemma StepPreservesInvariant<T>(show: T -> string, s: State<T>, m: Menu<T>, cb: Callbacks, ev: Event, edits: seq<string>, focusedAfterInput: bool)
    requires Invariant(show, s) && MenuInvariant(s, m)
    ensures var r := Step(s, m, cb, ev, edits, focusedAfterInput);
      && Invariant(show, r.state)
      && MenuInvariant(r.state, r.menu)
      && r.state.filtered.options == TokenSearch.Search(s.options, s.matchers, r.state.value)
      && r.state.options == s.options && r.state.matchers == s.matchers
  {
    var s1 := s.(focused := focusedAfterInput);
    var edited := ApplyEdits(s1, m, cb, edits);
    EditsPreserveInvariant(show, s1, m, cb, edits);
    var navigated := if edited.state.focused then Navigate(edited.state, edited.menu, cb, ev, s.focused) else Moved(edited.menu, []);
    assert Synced(edited.state, navigated.menu);
    CommitPreservesInvariant(show, edited.state, navigated.menu);
  }

  /** A freshly built widget with its first menu satisfies both invariants. */
  lemma ConstructionEstablishesInvariant<T>(show: T -> string, options: seq<T>, selection: Option<T>, now: nat)
    ensures var s := WithSelection(show, options, selection, now);
      var r := NewMenu(s);
      && Invariant(show, r.state) && MenuInvariant(r.state, r.menu)
      && r.state.filtered.options == TokenSearch.Search(options, Matching.BuildMatchers(show, options), r.state.value)
  {
  }

  // ---------------------------------------------------------------------------
  // Text changes
  // ---------------------------------------------------------------------------

  /**
   * Typing moves the hover back to the first entry, even when the new list
   * is empty, recomputes the list for the last text, and publishes one
   * `Input` per change when that callback is set.
   */
  lemma TextChangeResetsHover<T>(s: State<T>, m: Menu<T>, cb: Callbacks, ev: Event, edits: seq<string>, focusedAfterInput: bool)
    requires |edits| > 0
    requires m.newSelection.None?
    requires ActionOf(ev) == Ignore
    ensures var r := Step(s, m, cb, ev, edits, focusedAfterInput);
      && r.menu.hovered == Some(0)
      && r.state.value == edits[|edits| - 1]
      && r.state.filtered.options == TokenSearch.Search(s.options, s.matchers, edits[|edits| - 1])
      && (cb.onInput ==> forall k :: 0 <= k < |edits| ==> r.messages[k] == Input(edits[k]))
  {
  }

  // ---------------------------------------------------------------------------
  // Keyboard navigation
  // ---------------------------------------------------------------------------

  /**
   * Arrow keys and tab on a widget that stays focused move the hover and
   * change nothing else; a `Hovered` message follows only when that callback
   * is set and the new position is an entry of the list.
   */
  lemma ArrowKeysMoveHover<T>(s: State<T>, m: Menu<T>, cb: Callbacks, key: Key, shift: bool)
    requires s.focused && m.newSelection.None?
    requires key == ArrowUp || key == ArrowDown || key == Tab
    ensures var r := Step(s, m, cb, KeyPressed(key, shift), [], true);
      var list := s.filtered.options;
      var h := if Classify(key, shift) == Advance then Navigation.Advance(m.hovered, |list|)
               else Navigation.Retreat(m.hovered, |list|);
      && r.menu == m.(hovered := h)
      && r.state == s
      && r.messages == (if cb.onHovered && h.value < |list| then [Hovered(list[h.value])] else [])
      && !r.invalidate
      && r.callbacks == cb
  {
  }

  /**
   * When focus is gained, the entry under the hover (the first entry when
   * nothing is hovered) is announced if that callback is set.
   */
  lemma FocusGainAnnouncesHover<T>(s: State<T>, m: Menu<T>, cb: Callbacks)
    requires !s.focused && m.newSelection.None?
    ensures var r := Step(s, m, cb, OtherEvent, [], true);
      var i := m.hovered.GetOr(0);
      && r.messages == (if cb.onHovered && i < |s.filtered.options| then [Hovered(s.filtered.options[i])] else [])
      && r.state == s.(focused := true)
      && r.invalidate
  {
  }

  /**
   * A menu always hovers some position: the first menu hovers the first
   * entry, and no event clears the hover. The "nothing hovered" branches of
   * advance and retreat are therefore never taken by the widget itself.
   */
  lemma HoverStaysSet<T>(s: State<T>, m: Menu<T>, cb: Callbacks, ev: Event, edits: seq<string>, focusedAfterInput: bool)
    ensures NewMenu(s).menu.hovered.Some?
    ensures m.hovered.Some? ==> Step(s, m, cb, ev, edits, focusedAfterInput).menu.hovered.Some?
  {
  }

  // ---------------------------------------------------------------------------
  // Commit
  // ---------------------------------------------------------------------------

  /**
   * Enter on a hovered entry commits it within the same event: the value is
   * cleared, the list is the whole option list again, the widget loses
   * focus, exactly one `Selected` carrying that entry is published (last),
   * and no `Closed` is.
   */
  lemma EnterCommitsHovered<T>(s: State<T>, m: Menu<T>, cb: Callbacks, shift: bool, i: nat)
    requires m.newSelection.None? && m.hovered == Some(i) && i < |s.filtered.options|
    ensures var r := Step(s, m, cb, KeyPressed(Enter, shift), [], true);
      && r.state.value == ""
      && r.state.filtered.options == s.options
      && !r.state.focused
      && r.menu.newSelection.None?
      && r.menu.hovered == m.hovered
      && |r.messages| > 0
      && r.messages[|r.messages| - 1] == Selected(s.filtered.options[i])
      && (forall k :: 0 <= k < |r.messages| - 1 ==> r.messages[k].Hovered?)
      && r.callbacks == cb
      && r.invalidate == s.focused
  {
  }

  /** Enter with no hovered entry in the list changes nothing and selects nothing. */
  lemma EnterWithoutEntryIsIgnored<T>(s: State<T>, m: Menu<T>, cb: Callbacks, shift: bool)
    requires s.focused && m.newSelection.None?
    requires m.hovered.None? || m.hovered.value >= |s.filtered.options|
    ensures var r := Step(s, m, cb, KeyPressed(Enter, shift), [], true);
      && r.state == s && r.menu == m && r.messages == [] && r.callbacks == cb && !r.invalidate
  {
  }

  /** In the assembled message list, a `Selected` can only be the commit's, and it comes last. */
  lemma ConcludeSelection<T>(
    startedFocused: bool, cb: Callbacks,
    inputs: seq<Message<T>>, hovers: seq<Message<T>>,
    state: State<T>, menu: Menu<T>, selections: seq<Message<T>>)
    requires forall k :: 0 <= k < |inputs| ==> inputs[k].Input?
    requires forall k :: 0 <= k < |hovers| ==> hovers[k].Hovered?
    requires |selections| <= 1
    ensures var r := Conclude(startedFocused, cb, inputs, hovers, state, menu, selections);
      forall k :: 0 <= k < |r.messages| && r.messages[k].Selected? ==>
        |selections| == 1 && r.messages[k] == selections[0] && k == |r.messages| - 1
  {
    var r := Conclude(startedFocused, cb, inputs, hovers, state, menu, selections);
    var head := inputs + hovers;
    assert forall k :: 0 <= k < |head| ==> !head[k].Selected?;
    if |selections| == 1 {
      assert r.messages == head + selections;
    }
  }

  /**
   * A selection is published only by Enter, as the last message of the
   * event, carrying one of the options, and it always resets the widget.
   */
  lemma SelectedOnlyOnCommit<T>(show: T -> string, s: State<T>, m: Menu<T>, cb: Callbacks, ev: Event, edits: seq<string>, focusedAfterInput: bool)
    requires Invariant(show, s) && MenuInvariant(s, m)
    ensures var r := Step(s, m, cb, ev, edits, focusedAfterInput);
      forall k :: 0 <= k < |r.messages| && r.messages[k].Selected? ==>
        && ev.KeyPressed? && ev.key == Enter
        && k == |r.messages| - 1
        && r.messages[k].option in s.options
        && r.state.value == ""
        && r.state.filtered.options == s.options
        && !r.state.focused
  {
    var s1 := s.(focused := focusedAfterInput);
    var edited := ApplyEdits(s1, m, cb, edits);
    EditsPreserveInvariant(show, s1, m, cb, edits);
    var navigated := if edited.state.focused then Navigate(edited.state, edited.menu, cb, ev, s.focused) else Moved(edited.menu, []);
    var committed := ApplyCommit(edited.state, navigated.menu);
    ConcludeSelection(s.focused, cb, edited.messages, navigated.hovers, committed.state, committed.menu, committed.messages);
    if navigated.menu.newSelection.Some? {
      var x := navigated.menu.newSelection.value;
      var found := edited.state.filtered.options;
      var k :| 0 <= k < |found| && found[k] == x;
    }
  }

  // ---------------------------------------------------------------------------
  // Close notification
  // ---------------------------------------------------------------------------

  /** The close rule on the assembled message list of one event. */
  lemma ConcludeCloseRule<T>(
    startedFocused: bool, cb: Callbacks,
    inputs: seq<Message<T>>, hovers: seq<Message<T>>,
    state: State<T>, menu: Menu<T>, selections: seq<Message<T>>)
    requires forall k :: 0 <= k < |inputs| ==> inputs[k].Input?
    requires forall k :: 0 <= k < |hovers| ==> hovers[k].Hovered?
    requires forall k :: 0 <= k < |selections| ==> selections[k].Selected?
    ensures var r := Conclude(startedFocused, cb, inputs, hovers, state, menu, selections);
      && ((exists k :: 0 <= k < |r.messages| && r.messages[k].Closed?) <==>
          (&& startedFocused && !state.focused && cb.onClose
           && forall k :: 0 <= k < |r.messages| ==> !r.messages[k].Hovered? && !r.messages[k].Selected?))
      && (forall k :: 0 <= k < |r.messages| && r.messages[k].Closed? ==> k == |r.messages| - 1)
      && (r.callbacks.onClose <==> cb.onClose && forall k :: 0 <= k < |r.messages| ==> !r.messages[k].Closed?)
  {
    var r := Conclude(startedFocused, cb, inputs, hovers, state, menu, selections);
    var all := r.messages;
    if |hovers| > 0 {
      assert all[|inputs|] == hovers[0];
    } else if |selections| > 0 {
      assert all[|inputs|] == selections[0];
    }
    if all != inputs + hovers + selections {
      assert all[|all| - 1].Closed?;
    }
  }

  /**
   * `Closed` is published exactly when the widget started focused, ends
   * unfocused, published no hover or selection during the event, and still
   * holds its close message; it is then the last message, published once,
   * and the close message is used up.
   */
  lemma CloseRule<T>(s: State<T>, m: Menu<T>, cb: Callbacks, ev: Event, edits: seq<string>, focusedAfterInput: bool)
    ensures var r := Step(s, m, cb, ev, edits, focusedAfterInput);
      && ((exists k :: 0 <= k < |r.messages| && r.messages[k].Closed?) <==>
          (&& s.focused && !r.state.focused && cb.onClose
           && forall k :: 0 <= k < |r.messages| ==> !r.messages[k].Hovered? && !r.messages[k].Selected?))
      && (forall k :: 0 <= k < |r.messages| && r.messages[k].Closed? ==> k == |r.messages| - 1)
      && (r.callbacks.onClose <==> cb.onClose && forall k :: 0 <= k < |r.messages| ==> !r.messages[k].Closed?)
  {
    var edited := ApplyEdits(s.(focused := focusedAfterInput), m, cb, edits);
    var navigated := if edited.state.focused then Navigate(edited.state, edited.menu, cb, ev, s.focused) else Moved(edited.menu, []);
    var committed := ApplyCommit(edited.state, navigated.menu);
    assert Step(s, m, cb, ev, edits, focusedAfterInput)
        == Conclude(s.focused, cb, edited.messages, navigated.hovers, committed.state, committed.menu, committed.messages);
    ConcludeCloseRule(s.focused, cb, edited.messages, navigated.hovers, committed.state, committed.menu, committed.messages);
  }

  /** One event as the widget sees it: the event, the text changes it caused, and the focus afterwards. */
  datatype Tick = Tick(ev: Event, edits: seq<string>, focusedAfterInput: bool)

  /** A sequence of events handled one after the other, with every message published along the way. */
  function Run<T>(s: State<T>, m: Menu<T>, cb: Callbacks, ticks: seq<Tick>): (r: Reaction<T>)
    decreases |ticks|
  {
    if |ticks| == 0 then Reaction(s, m, cb, [], false)
    else
      var first := Step(s, m, cb, ticks[0].ev, ticks[0].edits, ticks[0].focusedAfterInput);
      var rest := Run(first.state, first.menu, first.callbacks, ticks[1..]);
      rest.(messages := first.messages + rest.messages)
  }

  /** A used-up close message stays used up, and no event publishes `Closed` without it. */
  lemma SpentCloseStaysSpent<T>(s: State<T>, m: Menu<T>, cb: Callbacks, ev: Event, edits: seq<string>, focusedAfterInput: bool)
    requires !cb.onClose
    ensures var r := Step(s, m, cb, ev, edits, focusedAfterInput);
      !r.callbacks.onClose && forall k :: 0 <= k < |r.messages| ==> !r.messages[k].Closed?
  {
    CloseRule(s, m, cb, ev, edits, focusedAfterInput);
  }

  /** Without its close message, a widget publishes no `Closed` over any sequence of events. */
  lemma {:induction false} SpentCloseNeverFires<T>(s: State<T>, m: Menu<T>, cb: Callbacks, ticks: seq<Tick>)
    requires !cb.onClose
    ensures var r := Run(s, m, cb, ticks);
      !r.callbacks.onClose && forall k :: 0 <= k < |r.messages| ==> !r.messages[k].Closed?
    decreases |ticks|
  {
    if |ticks| > 0 {
      var first := Step(s, m, cb, ticks[0].ev, ticks[0].edits, ticks[0].focusedAfterInput);
      SpentCloseStaysSpent(s, m, cb, ticks[0].ev, ticks[0].edits, ticks[0].focusedAfterInput);
      SpentCloseNeverFires(first.state, first.menu, first.callbacks, ticks[1..]);
    }
  }

  /**
   * Once `Closed` has been published, the same widget never publishes it
   * again, whatever follows: focus regained and lost again included.
   */
  lemma ClosedAtMostOnce<T>(s: State<T>, m: Menu<T>, cb: Callbacks, ev: Event, edits: seq<string>, f: bool, later: seq<Tick>)
    ensures var r1 := Step(s, m, cb, ev, edits, f);
      var rest := Run(r1.state, r1.menu, r1.callbacks, later);
      (exists k :: 0 <= k < |r1.messages| && r1.messages[k].Closed?) ==>
        forall k :: 0 <= k < |rest.messages| ==> !rest.messages[k].Closed?
  {
    var r1 := Step(s, m, cb, ev, edits, f);
    CloseRule(s, m, cb, ev, edits, f);
    if exists k :: 0 <= k < |r1.messages| && r1.messages[k].Closed? {
      SpentCloseNeverFires(r1.state, r1.menu, r1.callbacks, later);
    }
  }

  /** Focus lost by clicking away, with nothing else happening, publishes exactly `[Closed]` once. */
  lemma ClickAwayCloses<T>(s: State<T>, m: Menu<T>, cb: Callbacks)
    requires s.focused && m.newSelection.None? && cb.onClose
    ensures var r := Step(s, m, cb, OtherEvent, [], false);
      && r.messages == [Closed]
      && !r.callbacks.onClose
      && r.invalidate
      && r.state == s.(focused := false)
  {
  }

  // ---------------------------------------------------------------------------
  // Overlay
  // ---------------------------------------------------------------------------

  /**
   * The overlay of a focused widget always renders the widget's current
   * search result, whichever frame the menu's copy was last synced in.
   */
  lemma OverlayShowsSearch<T>(show: T -> string, s: State<T>, m: Menu<T>)
    requires Invariant(show, s) && MenuInvariant(s, m) && s.focused
    ensures var r := Overlay(s, m);
      && r.view.Some?
      && r.view.value.options == TokenSearch.Search(s.options, s.matchers, s.value)
      && r.view.value.hovered == m.hovered
      && r.menu.filtered == s.filtered
      && MenuInvariant(s, r.menu)
  {
  }

  /** After any event, the next overlay of a focused widget renders the search of the new value. */
  lemma OverlayAfterStep<T>(show: T -> string, s: State<T>, m: Menu<T>, cb: Callbacks, ev: Event, edits: seq<string>, focusedAfterInput: bool)
    requires Invariant(show, s) && MenuInvariant(s, m)
    ensures var r := Step(s, m, cb, ev, edits, focusedAfterInput);
      var o := Overlay(r.state, r.menu);
      r.state.focused ==> o.view.Some? && o.view.value.options == TokenSearch.Search(s.options, s.matchers, r.state.value)
  {
    StepPreservesInvariant(show, s, m, cb, ev, edits, focusedAfterInput);
    var r := Step(s, m, cb, ev, edits, focusedAfterInput);
    if r.state.focused {
      OverlayShowsSearch(show, r.state, r.menu);
    }
  }
}

=== FILE: examples_search.dfy ===
/** Worked examples of the search on concrete option lists. */
module SearchExamples {
  import opened Ascii
  import opened TokenSearch
  import Matching

  function Identity(s: string): string { s }

  lemma MatcherOfWord(w: string, m: string)
    requires AllAlnum(w)
    requires |m| == |w| && forall i :: 0 <= i < |w| ==> m[i] == ToLower(w[i])
    ensures Matching.Matcher(w) == m
  {
  }

  lemma AliceMatcher() ensures Matching.Matcher("Alice") == "alice" { MatcherOfWord("Alice", "alice"); }
  lemma BobMatcher() ensures Matching.Matcher("Bob") == "bob" { MatcherOfWord("Bob", "bob"); }
  lemma CharlieMatcher() ensures Matching.Matcher("Charlie") == "charlie" { MatcherOfWord("Charlie", "charlie"); }
  lemma NewarkMatcher() ensures Matching.Matcher("Newark") == "newark" { MatcherOfWord("Newark", "newark"); }

  lemma NewYorkWithoutSpace() ensures Matching.Matcher("NewYork") == "newyork" { MatcherOfWord("NewYork", "newyork"); }

  lemma NewYorkMatcher()
    ensures Matching.Matcher("New York") == "newyork"
  {
    Matching.MatcherIgnoresSeparator("New", ' ', "York");
    assert "New" + [' '] + "York" == "New York";
    assert "New" + "York" == "NewYork";
    NewYorkWithoutSpace();
  }

  lemma NamesMatchers()
    ensures Matching.BuildMatchers(Identity, ["Alice", "Bob", "Charlie"]) == ["alice", "bob", "charlie"]
  {
    var ms := Matching.BuildMatchers(Identity, ["Alice", "Bob", "Charlie"]);
    assert ms[0] == Matching.Matcher("Alice");
    assert ms[1] == Matching.Matcher("Bob");
    assert ms[2] == Matching.Matcher("Charlie");
    AliceMatcher();
    BobMatcher();
    CharlieMatcher();
  }

  lemma AliceHasLi()
    ensures Contains("alice", "li")
  {
    ContainsIffOccurs("alice", "li");
    assert OccursAt("alice", "li", 1);
  }

  lemma CharlieHasLi()
    ensures Contains("charlie", "li")
  {
    ContainsIffOccurs("charlie", "li");
    assert OccursAt("charlie", "li", 4);
  }

  lemma LiFacts()
    ensures Tokens("li") == ["li"]
    ensures MatchesAll("alice", ["li"]) && !MatchesAll("bob", ["li"]) && MatchesAll("charlie", ["li"])
  {
    assert Lower("li") == "li";
    SplitOfWord("li");
    AliceHasLi();
    MissingFirstCharNotContained("bob", "li");
    CharlieHasLi();
  }

  lemma FilterOfThree(options: seq<string>, ms: seq<string>, t: seq<string>)
    requires |options| == 3 && |ms| == 3
    requires MatchesAll(ms[0], t) && !MatchesAll(ms[1], t) && MatchesAll(ms[2], t)
    ensures Filter(options, ms, t) == [options[0], options[2]]
  {
    assert Filter(options[2..], ms[2..], t) == [options[2]] + Filter(options[3..], ms[3..], t);
    assert Filter(options[1..], ms[1..], t) == Filter(options[2..], ms[2..], t) by {
      assert options[1..][1..] == options[2..];
      assert ms[1..][1..] == ms[2..];
    }
  }

  /** `"li"` keeps the options whose matcher contains `li`, in list order. */
  lemma ExampleSingleToken()
    ensures Search(["Alice", "Bob", "Charlie"], Matching.BuildMatchers(Identity, ["Alice", "Bob", "Charlie"]), "li")
         == ["Alice", "Charlie"]
  {
    NamesMatchers();
    LiFacts();
    FilterOfThree(["Alice", "Bob", "Charlie"], ["alice", "bob", "charlie"], ["li"]);
  }

  lemma CitiesMatchers()
    ensures Matching.BuildMatchers(Identity, ["New York", "Newark"]) == ["newyork", "newark"]
  {
    var ms := Matching.BuildMatchers(Identity, ["New York", "Newark"]);
    assert ms[0] == Matching.Matcher("New York");
    assert ms[1] == Matching.Matcher("Newark");
    NewYorkMatcher();
    NewarkMatcher();
  }

  lemma TwoTokens()
    ensures Tokens("new ar") == ["new", "ar"]
  {
    TokensAtSeparator("new", ' ', "ar");
    assert "new" + [' '] + "ar" == "new ar";
    assert Lower("new") == "new";
    assert Lower("ar") == "ar";
    SplitOfWord("new");
    SplitOfWord("ar");
  }

  lemma NewArFacts()
    ensures !MatchesAll("newyork", ["new", "ar"]) && MatchesAll("newark", ["new", "ar"])
  {
    assert Contains("newark", "new") by { ContainsIffOccurs("newark", "new"); assert OccursAt("newark", "new", 0); }
    assert Contains("newark", "ar") by { ContainsIffOccurs("newark", "ar"); assert OccursAt("newark", "ar", 3); }
    MissingFirstCharNotContained("newyork", "ar");
  }

  /** `"new ar"` is two tokens; only `newark` contains both. */
  lemma ExampleTwoTokens()
    ensures Search(["New York", "Newark"], Matching.BuildMatchers(Identity, ["New York", "Newark"]), "new ar")
         == ["Newark"]
  {
    CitiesMatchers();
    TwoTokens();
    var tokens := ["new", "ar"];
    NewArFacts();
    var options := ["New York", "Newark"];
    var ms := ["newyork", "newark"];
    assert Filter(options[1..], ms[1..], tokens) == [options[1]] + Filter(options[2..], ms[2..], tokens);
  }
}

=== FILE: filtering.dfy ===
/**
 * The filtered-options cache (`Filtered`): a list plus the instant it was
 * last replaced. Two owners hold a copy each; `Sync` reconciles them by
 * comparing instants only. Instants are modelled as natural numbers drawn
 * from a clock that only moves forward.
 */
module Filtering {

  datatype Filtered<T> = Filtered(options: seq<T>, stamp: nat)

  /** `Filtered::empty`: no options, stamped `now`. */
  function Empty<T>(now: nat): (r: Filtered<T>)
    ensures |r.options| == 0
    ensures r.stamp == now
  {
    Filtered([], now)
  }

  /**
   * `Filtered::update`: installs `options` stamped `now`; with a clock that
   * moved on since the old list, the new instant is a different one.
   */
  function Update<T>(f: Filtered<T>, options: seq<T>, now: nat): (r: Filtered<T>)
    ensures r.options == options && r.stamp == now
    ensures f.stamp < now ==> r.stamp != f.stamp
  {
    Filtered(options, now)
  }

  /**
   * `Filtered::sync`: the copy `target` takes over the whole of `source`
   * when their instants differ, and is left alone when they agree.
   */
  function Sync<T>(source: Filtered<T>, target: Filtered<T>): (r: Filtered<T>)
    ensures r.stamp == source.stamp
    ensures target.stamp != source.stamp ==> r == source
    ensures target.stamp == source.stamp ==> r == target
  {
    if target.stamp != source.stamp then source else target
  }

  /** Equal instants mean equal lists: what makes comparing instants enough. */
  ghost predicate Coherent<T>(source: Filtered<T>, target: Filtered<T>) {
    target.stamp == source.stamp ==> target.options == source.options
  }

  /** Between coherent copies, a sync leaves the target equal to the source in list and instant. */
  lemma SyncMakesEqual<T>(source: Filtered<T>, target: Filtered<T>)
    requires Coherent(source, target)
    ensures Sync(source, target) == source
  {
  }

  /** A second sync changes nothing. */
  lemma SyncIdempotent<T>(source: Filtered<T>, target: Filtered<T>)
    ensures Sync(source, Sync(source, target)) == Sync(source, target)
    ensures Coherent(source, Sync(source, target)) <==> Coherent(source, target)
  {
  }

  /**
   * After an update the next sync of any copy taken before it delivers the
   * new list: the fresh instant differs from every older one.
   */
  lemma UpdateThenSyncDelivers<T>(f: Filtered<T>, options: seq<T>, now: nat, target: Filtered<T>)
    requires f.stamp < now && target.stamp < now
    ensures Sync(Update(f, options, now), target).options == options
    ensures Coherent(Update(f, options, now), target)
  {
  }
}

=== FILE: matching.dfy ===
/**
 * The matcher builder: one normalised search key per option, computed once
 * when the widget state is created (`build_matchers`).
 */
module Matching {
  import opened Ascii

  /**
   * The key of one option: its display string with every character that is
   * not ASCII alphanumeric removed, then lower-cased.
   */
  function Matcher(display: string): (r: string)
    ensures AllLowerAlnum(r)
    ensures |r| == |Retain(display)|
  {
    Lower(Retain(display))
  }

  /** Matchers for a whole option list, in option order; `show` is the option's `Display`. */
  function BuildMatchers<T>(show: T -> string, options: seq<T>): (r: seq<string>)
    ensures |r| == |options|
    ensures forall i :: 0 <= i < |options| ==> r[i] == Matcher(show(options[i]))
  {
    if |options| == 0 then [] else [Matcher(show(options[0]))] + BuildMatchers(show, options[1..])
  }

  /**
   * A matcher depends only on its option's display string, never on where the
   * option sits in the list or on the other options.
   */
  lemma {:induction false} MatcherIsPositionIndependent<T>(show: T -> string, before: seq<T>, x: T, after: seq<T>)
    ensures BuildMatchers(show, before + [x] + after)[|before|] == BuildMatchers(show, [x])[0]
    ensures BuildMatchers(show, before + [x] + after)
         == BuildMatchers(show, before) + BuildMatchers(show, [x]) + BuildMatchers(show, after)
  {
    BuildMatchersAppend(show, before + [x], after);
    BuildMatchersAppend(show, before, [x]);
  }

  lemma {:induction false} BuildMatchersAppend<T>(show: T -> string, a: seq<T>, b: seq<T>)
    ensures BuildMatchers(show, a + b) == BuildMatchers(show, a) + BuildMatchers(show, b)
  {
    var l := BuildMatchers(show, a + b);
    var r := BuildMatchers(show, a) + BuildMatchers(show, b);
    assert |l| == |r|;
    forall i | 0 <= i < |l| ensures l[i] == r[i] {
      if i < |a| {
        assert (a + b)[i] == a[i];
      } else {
        assert (a + b)[i] == b[i - |a|];
      }
    }
  }

  /** Normalising twice is normalising once: a matcher is its own matcher. */
  lemma MatcherIdempotent(display: string)
    ensures Matcher(Matcher(display)) == Matcher(display)
  {
    var m := Matcher(display);
    assert AllAlnum(m);
    assert Retain(m) == m;
    LowerOfLowerAlnum(m);
  }

  /** The matcher of a concatenation is the concatenation of the matchers. */
  lemma MatcherAppend(a: string, b: string)
    ensures Matcher(a + b) == Matcher(a) + Matcher(b)
  {
    RetainAppend(a, b);
    LowerAppend(Retain(a), Retain(b));
  }

  /** Punctuation and spaces in a display string do not affect its matcher. */
  lemma MatcherIgnoresSeparator(a: string, c: char, b: string)
    requires !IsAlnum(c)
    ensures Matcher(a + [c] + b) == Matcher(a + b)
  {
    assert Retain([c]) == [];
    assert Matcher([c]) == [];
    MatcherAppend(a + [c], b);
    MatcherAppend(a, [c]);
    MatcherAppend(a, b);
    assert Matcher(a + [c]) == Matcher(a) + [];
  }

  /** Letter case in a display string does not affect its matcher. */
  lemma {:induction false} LowerMatcher(a: string)
    ensures Matcher(Lower(a)) == Matcher(a)
  {
    if |a| == 0 {
    } else {
      assert a == [a[0]] + a[1..];
      assert Lower(a) == [ToLower(a[0])] + Lower(a[1..]);
      MatcherAppend([ToLower(a[0])], Lower(a[1..]));
      MatcherAppend([a[0]], a[1..]);
      LowerMatcher(a[1..]);
    }
  }
}

=== FILE: navigation.dfy ===
/**
 * Keyboard navigation over the filtered list: the hovered position moves
 * forward (arrow-down, tab) or backward (arrow-up, shift-tab) with
 * wrap-around, using the saturating `usize` arithmetic of the widget.
 */
module Navigation {
  import opened Wrappers

  /** `n.saturating_sub(1)`: the last position, or 0 for an empty list. */
  function Last(n: nat): nat {
    if n == 0 then 0 else n - 1
  }

  /** Position `x` counted round a list of `n` entries: `x` reduced by whole laps. */
  function Wrap(x: nat, n: nat): (r: nat)
    requires n > 0
    ensures r < n
    ensures r <= x
    decreases x
  {
    if x < n then x else Wrap(x - n, n)
  }

  /**
   * Arrow-down / tab. No hover moves to the first entry; the last entry
   * wraps to the first; any other position moves one forward, capped at the
   * last entry.
   */
  function Advance(hovered: Option<nat>, n: nat): (r: Option<nat>)
    ensures r.Some?
    ensures n > 0 ==> r.value < n
    ensures hovered.None? ==> r == Some(0)
    ensures n == 0 ==> r == Some(0)
    ensures hovered.Some? && hovered.value < n ==> r == Some(Wrap(hovered.value + 1, n))
    ensures hovered.Some? && hovered.value >= n > 0 ==> r == Some(n - 1)
  {
    match hovered
    case None => Some(0)
    case Some(i) =>
      if i == Last(n) then Some(0)
      else if i + 1 <= Last(n) then Some(i + 1)
      else Some(Last(n))
  }

  /**
   * Arrow-up / shift-tab. No hover moves to the first entry; the first
   * entry wraps to the last; any other position moves one back (a position
   * beyond the list is not clamped, it only decreases).
   */
  function Retreat(hovered: Option<nat>, n: nat): (r: Option<nat>)
    ensures r.Some?
    ensures hovered.None? ==> r == Some(0)
    ensures hovered.Some? && hovered.value < n ==> r == Some(Wrap(hovered.value + n - 1, n))
    ensures hovered.Some? && hovered.value > 0 ==> r == Some(hovered.value - 1)
    ensures hovered == Some(0) ==> r == Some(Last(n))
  {
    match hovered
    case None => Some(0)
    case Some(i) =>
      if i == 0 then Some(Last(n)) else Some(i - 1)
  }

  /** Retreat undoes advance, and advance undoes retreat, on every valid position. */
  lemma RetreatUndoesAdvance(i: nat, n: nat)
    requires i < n
    ensures Retreat(Advance(Some(i), n), n) == Some(i)
    ensures Advance(Retreat(Some(i), n), n) == Some(i)
  {
  }

  /** Pressing advance `k` times. */
  function AdvanceTimes(hovered: Option<nat>, n: nat, k: nat): (r: Option<nat>)
    ensures k > 0 ==> r.Some?
    ensures k == 0 ==> r == hovered
  {
    if k == 0 then hovered else Advance(AdvanceTimes(hovered, n, k - 1), n)
  }

  lemma {:induction false} WrapStep(x: nat, n: nat)
    requires n > 0
    ensures Wrap(Wrap(x, n) + 1, n) == Wrap(x + 1, n)
    decreases x
  {
    if x >= n {
      WrapStep(x - n, n);
      assert x + 1 - n == x - n + 1;
    }
  }

  /** From a valid position, `k` advances move `k` places round the list. */
  lemma {:induction false} AdvanceCycles(i: nat, n: nat, k: nat)
    requires i < n
    ensures AdvanceTimes(Some(i), n, k) == Some(Wrap(i + k, n))
  {
    if k > 0 {
      AdvanceCycles(i, n, k - 1);
      WrapStep(i + k - 1, n);
    }
  }

  /** A full lap of `n` advances comes back to the starting entry. */
  lemma FullLapReturns(i: nat, n: nat)
    requires i < n
    ensures AdvanceTimes(Some(i), n, n) == Some(i)
  {
    AdvanceCycles(i, n, n);
    assert Wrap(i + n, n) == Wrap(i, n);
  }

  /**
   * From no hover, the first advance lands on entry 0 and each further one
   * moves a place: `n` presses end on the last entry, `n + 1` on the first.
   */
  lemma AdvanceFromNoHover(n: nat, k: nat)
    requires n > 0 && k > 0
    ensures AdvanceTimes(None, n, k) == Some(Wrap(k - 1, n))
    ensures AdvanceTimes(None, n, n) == Some(n - 1)
    ensures AdvanceTimes(None, n, n + 1) == Some(0)
  {
    FromNoHover(n, k);
    FromNoHover(n, n);
    FromNoHover(n, n + 1);
    assert Wrap(n, n) == Wrap(0, n);
  }

  lemma {:induction false} FromNoHover(n: nat, k: nat)
    requires n > 0 && k > 0
    ensures AdvanceTimes(None, n, k) == AdvanceTimes(Some(0), n, k - 1)
    ensures AdvanceTimes(None, n, k) == Some(Wrap(k - 1, n))
  {
    if k > 1 {
      FromNoHover(n, k - 1);
    }
    AdvanceCycles(0, n, k - 1);
  }

  /** Three entries, no hover: advance, advance, retreat, retreat visits 0, 1, 0, 2. */
  lemma ExampleThreeEntries()
    ensures Advance(None, 3) == Some(0)
    ensures Advance(Some(0), 3) == Some(1)
    ensures Retreat(Some(1), 3) == Some(0)
    ensures Retreat(Some(0), 3) == Some(2)
  {
  }
}

=== FILE: token_search.dfy ===
/**
 * The token search (`search`): the query is lower-cased and cut at every
 * character that is not ASCII alphanumeric; an option is kept when its
 * matcher contains every piece as a substring. The filter is stable.
 */
module TokenSearch {
  import opened Ascii

  predicate IsSeparator(c: char) {
    !IsAlnum(c)
  }

  predicate NoUpper(s: string) {
    forall i :: 0 <= i < |s| ==> !IsUpper(s[i])
  }

  function Min(a: nat, b: nat): nat {
    if a <= b then a else b
  }

  // ---------------------------------------------------------------------------
  // Tokenizing the query
  // ---------------------------------------------------------------------------

  /**
   * `str::split` with a character predicate: every separator ends one piece
   * and starts the next, so empty pieces are kept and `""` gives `[""]`.
   */
  function Split(s: string): (r: seq<string>)
    ensures |r| >= 1
    ensures forall k :: 0 <= k < |r| ==> AllAlnum(r[k])
    ensures NoUpper(s) ==> forall k :: 0 <= k < |r| ==> NoUpper(r[k])
  {
    if |s| == 0 then [""]
    else
      var rest := Split(s[1..]);
      if IsSeparator(s[0]) then [""] + rest
      else [[s[0]] + rest[0]] + rest[1..]
  }

  /** The separator characters of `s`, in order: what `Split` cuts at. */
  function Separators(s: string): (r: string)
    ensures forall i :: 0 <= i < |r| ==> IsSeparator(r[i])
  {
    if |s| == 0 then []
    else if IsSeparator(s[0]) then [s[0]] + Separators(s[1..])
    else Separators(s[1..])
  }

  /** Glues pieces back together, putting `seps[k]` between piece `k` and piece `k + 1`. */
  function Interleave(pieces: seq<string>, seps: string): string
    requires |pieces| == |seps| + 1
  {
    if |seps| == 0 then pieces[0]
    else pieces[0] + [seps[0]] + Interleave(pieces[1..], seps[1..])
  }

  lemma InterleaveConsFirst(x: string, pieces: seq<string>, seps: string)
    requires |pieces| == |seps| + 1
    ensures Interleave([x + pieces[0]] + pieces[1..], seps) == x + Interleave(pieces, seps)
  {
    var p := [x + pieces[0]] + pieces[1..];
    assert p[1..] == pieces[1..];
  }

  /**
   * `Split` loses nothing: the pieces, glued back with the separators they
   * were cut at, give the original string. With `Split`'s guarantee that no
   * piece holds a separator this determines `Split` completely.
   */
  lemma {:induction false} SplitRoundTrip(s: string)
    ensures |Split(s)| == |Separators(s)| + 1
    ensures Interleave(Split(s), Separators(s)) == s
  {
    if |s| == 0 {
    } else {
      var rest := Split(s[1..]);
      SplitRoundTrip(s[1..]);
      if IsSeparator(s[0]) {
        assert ([""] + rest)[1..] == rest;
        assert s == [s[0]] + s[1..];
      } else {
        InterleaveConsFirst([s[0]], rest, Separators(s[1..]));
        assert s == [s[0]] + s[1..];
      }
    }
  }

  /** Cutting a string at one separator splits its pieces into the pieces of either side. */
  lemma {:induction false} SplitAtSeparator(a: string, c: char, b: string)
    requires IsSeparator(c)
    ensures Split(a + [c] + b) == Split(a) + Split(b)
  {
    if |a| == 0 {
      assert a + [c] + b == [c] + b;
      assert ([c] + b)[1..] == b;
    } else {
      assert (a + [c] + b)[1..] == a[1..] + [c] + b;
      SplitAtSeparator(a[1..], c, b);
    }
  }

  /** A string with no separator is a single piece. */
  lemma {:induction false} SplitOfWord(w: string)
    requires AllAlnum(w)
    ensures Split(w) == [w]
  {
    if |w| > 0 {
      SplitOfWord(w[1..]);
      assert w == [w[0]] + w[1..];
    }
  }

  /** The query tokens: `query.to_lowercase().split(not ASCII alphanumeric)`. */
  function Tokens(query: string): (r: seq<string>)
    ensures |r| >= 1
    ensures forall k :: 0 <= k < |r| ==> AllLowerAlnum(r[k])
  {
    Split(Lower(query))
  }

  /** A query made only of separators (the empty query among them) gives only empty tokens. */
  lemma {:induction false} SeparatorQueryTokens(q: string)
    requires forall i :: 0 <= i < |q| ==> IsSeparator(q[i])
    ensures forall k :: 0 <= k < |Tokens(q)| ==> Tokens(q)[k] == ""
    ensures |Tokens(q)| == |q| + 1
  {
    SplitOfSeparators(Lower(q));
  }

  lemma {:induction false} SplitOfSeparators(s: string)
    requires forall i :: 0 <= i < |s| ==> IsSeparator(s[i])
    ensures forall k :: 0 <= k < |Split(s)| ==> Split(s)[k] == ""
    ensures |Split(s)| == |s| + 1
  {
    if |s| > 0 {
      SplitOfSeparators(s[1..]);
    }
  }

  lemma TokensAtSeparator(a: string, c: char, b: string)
    requires IsSeparator(c)
    ensures Tokens(a + [c] + b) == Tokens(a) + Tokens(b)
  {
    LowerAppend(a + [c], b);
    LowerAppend(a, [c]);
    assert Lower([c]) == [c];
    SplitAtSeparator(Lower(a), c, Lower(b));
  }

  // ---------------------------------------------------------------------------
  // Matching one option
  // ---------------------------------------------------------------------------

  /** `str::contains`: `needle` occurs somewhere in `hay` (the empty needle always does). */
  function Contains(hay: string, needle: string): (r: bool)
    ensures needle <= hay ==> r
    ensures r ==> |needle| <= |hay|
    decreases |hay|
  {
    needle <= hay || (|hay| > 0 && Contains(hay[1..], needle))
  }

  predicate OccursAt(hay: string, needle: string, i: nat) {
    i + |needle| <= |hay| && hay[i..i + |needle|] == needle
  }

  /** A contained needle occurs at some position. */
  lemma {:induction false} ContainsGivesPosition(hay: string, needle: string)
    requires Contains(hay, needle)
    ensures exists i: nat :: OccursAt(hay, needle, i)
    decreases |hay|
  {
    if needle <= hay {
      assert OccursAt(hay, needle, 0);
    } else {
      ContainsGivesPosition(hay[1..], needle);
      var i: nat :| OccursAt(hay[1..], needle, i);
      assert hay[i + 1..i + 1 + |needle|] == hay[1..][i..i + |needle|];
      assert OccursAt(hay, needle, i + 1);
    }
  }

  /** A needle occurring at some position is contained. */
  lemma {:induction false} PositionGivesContains(hay: string, needle: string, i: nat)
    requires OccursAt(hay, needle, i)
    ensures Contains(hay, needle)
    decreases i
  {
    if i == 0 {
      assert needle <= hay;
    } else {
      assert hay[1..][i - 1..i - 1 + |needle|] == hay[i..i + |needle|];
      PositionGivesContains(hay[1..], needle, i - 1);
    }
  }

  /** `Contains` finds exactly the substrings: some position holds the needle. */
  lemma ContainsIffOccurs(hay: string, needle: string)
    ensures Contains(hay, needle) <==> exists i: nat :: OccursAt(hay, needle, i)
  {
    if Contains(hay, needle) {
      ContainsGivesPosition(hay, needle);
    }
    if i: nat :| OccursAt(hay, needle, i) {
      PositionGivesContains(hay, needle, i);
    }
  }

  /** A needle whose first character never appears in `hay` is not contained in it. */
  lemma MissingFirstCharNotContained(hay: string, needle: string)
    requires |needle| > 0 && needle[0] !in hay
    ensures !Contains(hay, needle)
  {
    ContainsIffOccurs(hay, needle);
  }

  /** `tokens.iter().all(|t| matcher.contains(t))`. */
  function MatchesAll(matcher: string, tokens: seq<string>): (r: bool)
    ensures r <==> forall k :: 0 <= k < |tokens| ==> Contains(matcher, tokens[k])
  {
    |tokens| == 0 || (Contains(matcher, tokens[0]) && MatchesAll(matcher, tokens[1..]))
  }

  // ---------------------------------------------------------------------------
  // Filtering the options
  // ---------------------------------------------------------------------------

  /**
   * Options zipped with matchers (the zip stops at the shorter list), keeping
   * the options whose matcher contains every token.
   */
  function Filter<T>(options: seq<T>, matchers: seq<string>, tokens: seq<string>): (r: seq<T>)
    ensures |r| <= Min(|options|, |matchers|)
    ensures forall k :: 0 <= k < |r| ==> r[k] in options
  {
    if |options| == 0 || |matchers| == 0 then []
    else
      (if MatchesAll(matchers[0], tokens) then [options[0]] else [])
      + Filter(options[1..], matchers[1..], tokens)
  }

  /** `search(options, matchers, query)`. */
  function Search<T>(options: seq<T>, matchers: seq<string>, query: string): (r: seq<T>)
    ensures |r| <= Min(|options|, |matchers|)
    ensures forall k :: 0 <= k < |r| ==> r[k] in options
  {
    Filter(options, matchers, Tokens(query))
  }

  /**
   * Reference definition of the selection: the positions below `n` whose
   * matcher contains every token, in increasing order.
   */
  function Kept(matchers: seq<string>, tokens: seq<string>, n: nat): (r: seq<nat>)
    requires n <= |matchers|
    ensures forall k :: 0 <= k < |r| ==> r[k] < n
    ensures forall j, k :: 0 <= j < k < |r| ==> r[j] < r[k]
    ensures forall i :: 0 <= i < n ==> (i in r <==> MatchesAll(matchers[i], tokens))
  {
    if n == 0 then []
    else Kept(matchers, tokens, n - 1) + (if MatchesAll(matchers[n - 1], tokens) then [n - 1] else [])
  }

  /** The options at the given positions, in the given order. */
  function Pick<T>(options: seq<T>, positions: seq<nat>): (r: seq<T>)
    requires forall k :: 0 <= k < |positions| ==> positions[k] < |options|
    ensures |r| == |positions|
    ensures forall k :: 0 <= k < |positions| ==> r[k] == options[positions[k]]
  {
    seq(|positions|, k requires 0 <= k < |positions| => options[positions[k]])
  }

  lemma {:induction false} FilterAppend<T>(a: seq<T>, ma: seq<string>, b: seq<T>, mb: seq<string>, tokens: seq<string>)
    requires |a| == |ma|
    ensures Filter(a + b, ma + mb, tokens) == Filter(a, ma, tokens) + Filter(b, mb, tokens)
  {
    if |a| == 0 {
      assert a + b == b;
      assert ma + mb == mb;
    } else {
      assert (a + b)[1..] == a[1..] + b;
      assert (ma + mb)[1..] == ma[1..] + mb;
      FilterAppend(a[1..], ma[1..], b, mb, tokens);
    }
  }

  lemma {:induction false} FilterTruncates<T>(options: seq<T>, matchers: seq<string>, tokens: seq<string>)
    ensures var n := Min(|options|, |matchers|);
      Filter(options, matchers, tokens) == Filter(options[..n], matchers[..n], tokens)
  {
    if |options| > 0 && |matchers| > 0 {
      FilterTruncates(options[1..], matchers[1..], tokens);
      var n := Min(|options|, |matchers|);
      assert options[..n][1..] == options[1..][..n - 1];
      assert matchers[..n][1..] == matchers[1..][..n - 1];
    }
  }

  lemma PickAppend<T>(options: seq<T>, a: seq<nat>, b: seq<nat>)
    requires forall k :: 0 <= k < |a| ==> a[k] < |options|
    requires forall k :: 0 <= k < |b| ==> b[k] < |options|
    ensures Pick(options, a + b) == Pick(options, a) + Pick(options, b)
  {
    var ab := a + b;
    assert forall k :: 0 <= k < |ab| ==> ab[k] < |options|;
    var l, r := Pick(options, ab), Pick(options, a) + Pick(options, b);
    forall k | 0 <= k < |l| ensures l[k] == r[k] {
      if k >= |a| {
        assert ab[k] == b[k - |a|];
      }
    }
  }

  lemma FilterOne<T>(x: T, m: string, tokens: seq<string>)
    ensures Filter([x], [m], tokens) == if MatchesAll(m, tokens) then [x] else []
  {
    assert [x][1..] == [];
    assert [m][1..] == [];
  }

  lemma {:induction false} FilterPrefixMatchesKept<T>(options: seq<T>, matchers: seq<string>, tokens: seq<string>, j: nat)
    requires j <= |options| && j <= |matchers|
    ensures Filter(options[..j], matchers[..j], tokens) == Pick(options, Kept(matchers, tokens, j))
  {
    if j > 0 {
      FilterPrefixMatchesKept(options, matchers, tokens, j - 1);
      assert options[..j] == options[..j - 1] + [options[j - 1]];
      assert matchers[..j] == matchers[..j - 1] + [matchers[j - 1]];
      FilterAppend(options[..j - 1], matchers[..j - 1], [options[j - 1]], [matchers[j - 1]], tokens);
      FilterOne(options[j - 1], matchers[j - 1], tokens);
      var extra: seq<nat> := if MatchesAll(matchers[j - 1], tokens) then [j - 1] else [];
      PickAppend(options, Kept(matchers, tokens, j - 1), extra);
    }
  }

  /**
   * The search result is exactly the options at the kept positions, in
   * their original order: an order-preserving subsequence holding every
   * option whose matcher contains all tokens and no other.
   */
  lemma SearchSelectsKept<T>(options: seq<T>, matchers: seq<string>, query: string)
    ensures var n := Min(|options|, |matchers|);
      Search(options, matchers, query) == Pick(options, Kept(matchers, Tokens(query), n))
  {
    var n := Min(|options|, |matchers|);
    FilterTruncates(options, matchers, Tokens(query));
    FilterPrefixMatchesKept(options, matchers, Tokens(query), n);
  }

  /** With every token matching every matcher, the filter passes the zipped prefix through. */
  lemma {:induction false} FilterKeepsAll<T>(options: seq<T>, matchers: seq<string>, tokens: seq<string>)
    requires forall k :: 0 <= k < |tokens| ==> tokens[k] == ""
    ensures Filter(options, matchers, tokens) == options[..Min(|options|, |matchers|)]
  {
    if |options| > 0 && |matchers| > 0 {
      assert Contains(matchers[0], "");
      FilterKeepsAll(options[1..], matchers[1..], tokens);
      var n := Min(|options|, |matchers|);
      assert options[..n] == [options[0]] + options[1..][..n - 1];
    }
  }

  /**
   * A query of separators only, the empty query included, keeps every
   * option of the zipped prefix: its tokens are all `""`, which every
   * matcher contains.
   */
  lemma SeparatorQueryKeepsAll<T>(options: seq<T>, matchers: seq<string>, query: string)
    requires forall i :: 0 <= i < |query| ==> IsSeparator(query[i])
    ensures Search(options, matchers, query) == options[..Min(|options|, |matchers|)]
  {
    SeparatorQueryTokens(query);
    FilterKeepsAll(options, matchers, Tokens(query));
  }

  /**
   * The empty query is the single token `""`, not zero tokens, and with one
   * matcher per option it keeps every option.
   */
  lemma EmptyQueryKeepsAll<T>(options: seq<T>, matchers: seq<string>)
    requires |matchers| == |options|
    ensures Tokens("") == [""]
    ensures Search(options, matchers, "") == options
  {
    SeparatorQueryKeepsAll(options, matchers, "");
  }

  lemma {:induction false} FilterSameTokenSet<T>(options: seq<T>, matchers: seq<string>, t1: seq<string>, t2: seq<string>)
    requires forall t :: t in t1 <==> t in t2
    ensures Filter(options, matchers, t1) == Filter(options, matchers, t2)
  {
    if |options| > 0 && |matchers| > 0 {
      var m := matchers[0];
      if MatchesAll(m, t1) {
        forall k | 0 <= k < |t2| ensures Contains(m, t2[k]) {
          assert t2[k] in t1;
        }
      }
      if MatchesAll(m, t2) {
        forall k | 0 <= k < |t1| ensures Contains(m, t1[k]) {
          assert t1[k] in t2;
        }
      }
      FilterSameTokenSet(options[1..], matchers[1..], t1, t2);
    }
  }

  /** Only the set of tokens matters: their order and repetition do not change the result. */
  lemma SameTokensSameResult<T>(options: seq<T>, matchers: seq<string>, q1: string, q2: string)
    requires forall t :: t in Tokens(q1) <==> t in Tokens(q2)
    ensures Search(options, matchers, q1) == Search(options, matchers, q2)
  {
    FilterSameTokenSet(options, matchers, Tokens(q1), Tokens(q2));
  }

  /** Swapping the two halves of a query around a separator does not change the result. */
  lemma QueryOrderIrrelevant<T>(options: seq<T>, matchers: seq<string>, a: string, c: char, b: string)
    requires IsSeparator(c)
    ensures Search(options, matchers, a + [c] + b) == Search(options, matchers, b + [c] + a)
  {
    TokensAtSeparator(a, c, b);
    TokensAtSeparator(b, c, a);
    SameTokensSameResult(options, matchers, a + [c] + b, b + [c] + a);
  }

  /** Repeating a query after a separator does not change the result. */
  lemma QueryRepetitionIrrelevant<T>(options: seq<T>, matchers: seq<string>, a: string, c: char)
    requires IsSeparator(c)
    ensures Search(options, matchers, a + [c] + a) == Search(options, matchers, a)
  {
    TokensAtSeparator(a, c, a);
    SameTokensSameResult(options, matchers, a + [c] + a, a);
  }

  /**
   * AND semantics: an option is kept for `a c b` exactly when it is kept
   * both for `a` and for `b`.
   */
  lemma JoinedQueryIntersects(matchers: seq<string>, a: string, c: char, b: string, n: nat)
    requires IsSeparator(c)
    requires n <= |matchers|
    ensures forall i :: 0 <= i < n ==>
      (i in Kept(matchers, Tokens(a + [c] + b), n) <==>
         i in Kept(matchers, Tokens(a), n) && i in Kept(matchers, Tokens(b), n))
  {
    TokensAtSeparator(a, c, b);
    var ta, tb := Tokens(a), Tokens(b);
    forall i | 0 <= i < n
      ensures MatchesAll(matchers[i], ta + tb) <==> MatchesAll(matchers[i], ta) && MatchesAll(matchers[i], tb)
    {
      var m := matchers[i];
      if MatchesAll(m, ta) && MatchesAll(m, tb) {
        forall k | 0 <= k < |ta + tb| ensures Contains(m, (ta + tb)[k]) {
          if k >= |ta| {
            assert (ta + tb)[k] == tb[k - |ta|];
          }
        }
      }
      if MatchesAll(m, ta + tb) {
        forall k | 0 <= k < |tb| ensures Contains(m, tb[k]) {
          assert (ta + tb)[|ta| + k] == tb[k];
        }
        forall k | 0 <= k < |ta| ensures Contains(m, ta[k]) {
          assert (ta + tb)[k] == ta[k];
        }
      }
    }
  }
}

=== FILE: wrappers.dfy ===
/** The optional value used throughout the model, in place of Rust's `Option`. */
module Wrappers {

  datatype Option<+T> = None | Some(value: T) {

    /** Returns the value in `Some`, or `default` for `None` (Rust's `unwrap_or`). */
    function GetOr(default: T): T {
      match this
      case Some(v) => v
      case None => default
    }
  }
}
